=== FILE: README.md ===
# Fabula: playback controller and generate handler

A Dafny model of the two pieces of state-handling logic in the children's story
generator:

- The **audio playback controller** of the story view
  (`src/components/StoryDisplay.tsx`). It has a playback state
  (`idle | playing | paused`) and two reference cells, one for the current
  `AudioContext` and one for the current `AudioBufferSourceNode`. Three things
  act on it: the play button handler, the source's `onended` callback, and the
  clean-up of the effect that re-runs on every new story. The button label is
  a function of the state.
- The **generate-story handler** of the page (`App.tsx`,
  `handleGenerateStory`). It validates the four form fields, resets the page
  state before the call, maps the call's outcome to a story or an error
  message, and clears the loading flag in `finally`.

Files and modules:

| file | module | contents |
|---|---|---|
| `types.dfy` | `Types` | `Option`, the form record, `OutputFormat`, `StoryResult`, an opaque `AudioBuffer` |
| `audio_engine.dfy` | `AudioEngine` | the browser's audio objects as opaque handles with a status and a fresh-id counter |
| `story_display.dfy` | `StoryDisplay` | the playback transitions and the button label |
| `playback_traces.dfy` | `PlaybackTraces` | the invariant kept by every transition, and what it gives after any event sequence |
| `app.dfy` | `App` | validation, the pending state, and the outcome-to-state mapping |
| `page.dfy` | `Page` | the page's `storyResult` cell feeding the view |

How the browser is modelled. An audio context is a record
`Context(sampleRate, status)` with status `Running`, `Suspended` or `Closed`. A
buffer source is a record `Source(context, buffer, status, onEnded)`. Its
status is `Unstarted`, `Started` or `Stopped`, and `onEnded` says whether a
handler is attached. Each handle is an index into the engine's sequence of
contexts or sources. A new handle gets the next index, so a handle is never
reused. `start()` on a source that is not `Unstarted` throws an error in the
browser. The model makes this a precondition of `AudioEngine.Start`, so the
proof shows that the controller never restarts a source.

Each handler is one atomic transition over
`Player(story, state, contextRef, sourceRef, engine)`. The awaited
`generateStory` call is a parameter: it either resolves with a `StoryResult`
or rejects with an `Error` (which has a message) or some other value.

Three behaviours of the code shape the model:

- `onended` empties only the source cell and leaves the context cell as it
  is (StoryDisplay.tsx lines 60-63). After a narration finishes, the view is
  idle and still holds its context; the next start closes that context
  (lines 51-53).
- The clean-up empties the context cell only when that context is not
  already closed (lines 28-31); a closed context would stay in its cell.
  `Teardown` models this as written, and
  `PlaybackTraces.ReachableTeardownReleasesAll` proves that in every
  reachable state the clean-up does empty the cell and leaves no context open.
- `age` is text that is only tested for emptiness (App.tsx line 20), and the
  handler passes no abort signal to the service (App.tsx line 30).

## Model

| member | source | states |
|---|---|---|
| StoryDisplay.Mount | src/components/StoryDisplay.tsx:14-16 | The first render shows the given story, is idle, has both reference cells empty and has created no audio object |
| StoryDisplay.HandlePlayback | src/components/StoryDisplay.tsx:35-71 | With no audio buffer, nothing changes. Paused with a context: the same context resumes, the state becomes playing, no handle is created, and no other context or source changes (a closed context stays closed and nothing changes in the engine). Playing with a context: the same context suspends, the state becomes paused, with the same framing. Playing or paused with no context: no-op. Idle: the start described for StartPlayback. No existing source is ever restarted |
| StoryDisplay.StartPlayback | src/components/StoryDisplay.tsx:50-69 | The previous context is closed and otherwise kept as it was. A new context (fresh id, running, 24000 Hz) and a new source (fresh id, bound to that context and to the story's buffer, started, `onended` attached) are created, and both cells point to them. The state is playing. Every other earlier context and every earlier source is unchanged |
| StoryDisplay.OnEnded | src/components/StoryDisplay.tsx:60-63 | If the finishing source still has its handler, the state becomes idle, the source cell is emptied and that source is stopped. The context cell, every context and every other source are unchanged, and no source is added. A source without a handler changes nothing |
| StoryDisplay.ReleaseSource | src/components/StoryDisplay.tsx:23-27 | The held source keeps its context and buffer, loses its handler, and becomes stopped if it was playing; the source cell is empty. The story, the playback state, the context cell, every context and every other source are unchanged |
| StoryDisplay.Teardown | src/components/StoryDisplay.tsx:22-32 | The source cell ends empty and the sources change exactly as ReleaseSource states; every other source is unchanged. An open held context is closed and its cell emptied, with its sample rate kept. A closed held context stays in its cell exactly as it was. No handler that could still run belongs to the released source. No other context changes |
| StoryDisplay.StoryChanged | src/components/StoryDisplay.tsx:19-33 | After the clean-up and the effect re-run, the view shows the new story, is idle and holds no source. The context cell and the audio objects are as the clean-up leaves them: an open held context is closed and its cell emptied, a closed one stays in its cell exactly as it was, no other context changes and none is created |
| StoryDisplay.PlayButton | src/components/StoryDisplay.tsx:73-82 | playing gives "Pausar Áudio", paused gives "Continuar", idle gives "Tocar Áudio". The pause icon is shown exactly when playing |
| StoryDisplay.LabelDeterminesState | src/components/StoryDisplay.tsx:73-82 | The label determines the state: reading the label back gives the state, and no two states share a label |
| PlaybackTraces.MountEstablishesInv | src/components/StoryDisplay.tsx:14-20 | The first render satisfies the controller invariant |
| PlaybackTraces.ClickPreservesInv | src/components/StoryDisplay.tsx:35-71 | The button handler preserves the invariant. The only open context is the one in the cell. The only source whose handler can run is the one in the cell, and it plays on that context. The state is idle exactly when no source is held. Playing means the context runs and paused means it is suspended |
| PlaybackTraces.EndedPreservesInv | src/components/StoryDisplay.tsx:60-63 | The completion callback preserves the invariant |
| PlaybackTraces.NewStoryPreservesInv | src/components/StoryDisplay.tsx:19-33 | A story change preserves the invariant. Afterwards no context is open, the context cell is empty, and no completion handler can run |
| PlaybackTraces.RunPreservesInv | src/components/StoryDisplay.tsx:19-71 | Every sequence of clicks, completions and story changes preserves the invariant |
| PlaybackTraces.AtMostOneOpenContext | src/components/StoryDisplay.tsx:28-53 | After any event sequence from the first render, at most one context the component created is not closed, and only the source in the cell can still run its handler |
| PlaybackTraces.ReachableNeverFallsThrough | src/components/StoryDisplay.tsx:38-50 | In every reachable state, playing or paused implies that both cells are set. The fall-through of the button handler is never taken |
| PlaybackTraces.ReachableTeardownReleasesAll | src/components/StoryDisplay.tsx:28-31 | In every reachable state, the clean-up empties the context cell and leaves no context open |
| PlaybackTraces.PauseThenContinueKeepsContext | src/components/StoryDisplay.tsx:38-48 | Start, pause, continue: the same context and source throughout. The context is suspended, then running again. No new handle is created |
| PlaybackTraces.RestartAfterEndUsesFreshHandles | src/components/StoryDisplay.tsx:50-69 | Start, completion, start: the completion keeps the context cell. The restart closes that context and uses a new context and a new source. The finished source stays stopped |
| App.InitialPage | App.tsx:8-17 | The page starts with empty fields, the text output format, no story, no error, and not loading |
| App.InitialPageRefusesGenerate | App.tsx:8-23 | Generating from the first render, with every field still empty, makes no call and only sets the fixed "preencha todos os campos" message, whatever the call would return |
| App.FieldsFilledIffNoneEmpty | App.tsx:20 | Validation passes exactly when none of name, age, theme and characteristics is the empty string |
| App.AgeIsNotParsed | App.tsx:20 | Any non-empty age text, numeric or not, satisfies the age part of the validation |
| App.BeginGenerate | App.tsx:20-27 | With an empty field, the call is refused: only the error changes, to the fixed message, and the loading flag and story stay as they were. Otherwise the call goes out with the current form and format, and the page is loading, with no error and no story |
| App.ErrorMessage | App.tsx:32-37 | A thrown `Error` shows its own message. Any other thrown value shows "Um erro inesperado aconteceu." |
| App.ErrorMessageIdentifiesThrown | App.tsx:32-37 | The fallback text appears only for a non-`Error` value or an `Error` carrying that very text; two `Error`s with the same shown message carry the same message |
| App.Settle | App.tsx:29-40 | After the call settles, the page is not loading. A resolved call stores its result and keeps the cleared error. A rejected call keeps the cleared story and sets the mapped message |
| App.HandleGenerateStory | App.tsx:19-41 | The service is called exactly when validation passes. A refused run only sets the fixed message. The form and the output format are never changed. While an accepted run is pending, the page is loading with no error and no story. After an accepted run, the page is not loading and shows the result (no error) or the mapped error (no story) |
| App.RefusalIgnoresOutcome | App.tsx:20-23 | With an empty field the outcome cannot matter, because no call is made |
| App.AcceptedRunForgetsPreviousResult | App.tsx:25-37 | An accepted run does not depend on the story, error or loading flag shown before |
| App.NoErrorIffResolved | App.tsx:26-37 | After a run, the error cell is empty exactly when the call was made and resolved |
| Page.ShowStory | src/components/StoryDisplay.tsx:19-33 | The view re-runs its story effect only when the story value changes. When it does, the view ends idle with no source held |
| Page.GenerationResetsPlayback | App.tsx:25-31 | A generate run that reaches the service leaves the view quiet, whatever it was doing: it shows the final story, is idle, has every context closed and has no completion handler. A refused run leaves the view untouched |

## Left out

- PCM and base64 decoding (`decode`, `decodeAudioData`): these live in `utils/audio`, which is not part of this model. The audio buffer is an opaque handle.
- `services/geminiService.ts`: a thin wrapper over the hosted model API. The model takes its settled outcome as a parameter. It also omits that service's own throw when the speech response has no inline payload (lines 39-41) and its API-key check at startup (lines 5-9).
- The 24 kHz `AudioContext` that the service creates while decoding (geminiService.ts line 44) is never closed by the program. It lies outside the component, so the single-open-context property covers only the contexts the view creates.
- `src/components/StoryForm.tsx` and all rendering and styling (`renderContent`, the icons, class names). An error message that is the empty string is stored by `Settle`, but whether it is displayed depends on rendering, which is not modelled.
- Cancellation: the handler passes no abort signal and the form receives no cancel callback, so the code has no cancellation path.
- Asynchrony: `suspend`, `resume` and `close` return promises, and React batches state updates and schedules effects. Each handler is modelled as one atomic, synchronous transition. Promise rejections (for example `resume` on a closed context) are not modelled: a closed context stays closed and nothing else happens.
- `Page.ShowStory` compares story values, whereas React compares the `storyResult` prop by reference identity. Two distinct results with equal contents would re-run the effect in the program but not in the model.
- `StoryDisplay.OnEnded` is allowed whenever the source still plays with its handler attached, including while the context is suspended. This admits more behaviours than the browser, so the invariants proved over it are at least as strong.
- `AudioEngine.Stop` on a source that was never started throws in the browser. The model leaves such a source unchanged. The controller never stops an unstarted source.
- `source.connect(context.destination)` (StoryDisplay.tsx line 58) has no observable state in this model.
- StoryDisplay.ReleaseSource: states that the released source keeps no handler and is stopped, not that detaching before `stop()` matters. The browser dispatches the `ended` event asynchronously and reads `onended` at dispatch time, so within one synchronous clean-up the order of the two statements is not observable, and the model does not model event dispatch.

=== FILE: app.dfy ===
/**
 The generate-story handler of the page (App.tsx, `handleGenerateStory`).

 The call to the story service is not modelled: its settled outcome is a
 parameter. The handler then is a deterministic function from the page
 state and that outcome to the state after the `finally` block, passing
 through the pending state it sets before the call.
 */
module App {
  import opened Types

  /** What a rejected call throws: an `Error` (with its message) or any other value. */
  datatype Thrown = ErrorValue(message: string) | OtherValue

  /** How the awaited `generateStory` call settles. */
  datatype CallOutcome = Resolved(result: StoryResult) | Rejected(thrown: Thrown)

  /** The page's state cells. */
  datatype PageState = PageState(
    formData: StoryFormData,
    outputFormat: OutputFormat,
    storyResult: Option<StoryResult>,
    isLoading: bool,
    error: Option<string>
  )

  const MissingFieldsMessage: string := "Por favor, preencha todos os campos para criar a história."
  const UnexpectedErrorMessage: string := "Um erro inesperado aconteceu."

  /** The first render. */
  function InitialPage(): (s: PageState)
    ensures !s.isLoading && s.error.None? && s.storyResult.None?
    ensures s.outputFormat == Text
    ensures s.formData.name == "" && s.formData.age == ""
    ensures s.formData.theme == "" && s.formData.characteristics == ""
  {
    PageState(StoryFormData("", "", "", ""), Text, None, false, None)
  }

  /** Generating from the first render, before anything is typed, is
      always refused with the fixed message, whatever the call would do. */
  lemma InitialPageRefusesGenerate(outcome: CallOutcome)
    ensures !HandleGenerateStory(InitialPage(), outcome).called
    ensures HandleGenerateStory(InitialPage(), outcome).final ==
              InitialPage().(error := Some(MissingFieldsMessage))
  {
  }

  /** The fields in the order the handler tests them. */
  function RequiredFields(f: StoryFormData): seq<string>
  {
    [f.name, f.age, f.theme, f.characteristics]
  }

  /** The validation of the handler: every field is a non-empty string.
      Nothing else is checked; `age` in particular is never parsed. */
  predicate FieldsFilled(f: StoryFormData)
  {
    f.name != "" && f.age != "" && f.theme != "" && f.characteristics != ""
  }

  /** Validation fails exactly when one of the four fields is empty. */
  lemma FieldsFilledIffNoneEmpty(f: StoryFormData)
    ensures FieldsFilled(f) <==> forall k :: 0 <= k < |RequiredFields(f)| ==> RequiredFields(f)[k] != ""
    ensures !FieldsFilled(f) <==> "" in RequiredFields(f)
  {
    var fields := RequiredFields(f);
    assert fields[0] == f.name && fields[1] == f.age;
    assert fields[2] == f.theme && fields[3] == f.characteristics;
  }

  /** Any non-empty age text passes, numeric or not. */
  lemma AgeIsNotParsed(f: StoryFormData, age: string)
    requires age != ""
    ensures FieldsFilled(f.(age := age)) <==> f.name != "" && f.theme != "" && f.characteristics != ""
  {
  }

  /** The synchronous part of the handler, up to the awaited call. */
  datatype Dispatch =
    | Refused(page: PageState)                       // validation failed, no call
    | Requested(page: PageState, form: StoryFormData, format: OutputFormat)

  /** Validate the form; on failure set the fixed message and return
      without calling the service; otherwise enter the pending state and
      call it with the current form and format. */
  function BeginGenerate(s: PageState): (d: Dispatch)
    ensures d.Refused? <==> !FieldsFilled(s.formData)
    ensures d.Refused? ==>
              && d.page.error == Some(MissingFieldsMessage)
              && d.page.isLoading == s.isLoading
              && d.page.storyResult == s.storyResult
              && d.page.formData == s.formData && d.page.outputFormat == s.outputFormat
    ensures d.Requested? ==>
              && d.page.isLoading && d.page.error.None? && d.page.storyResult.None?
              && d.form == s.formData && d.format == s.outputFormat
              && d.page.formData == s.formData && d.page.outputFormat == s.outputFormat
  {
    if !FieldsFilled(s.formData) then
      Refused(s.(error := Some(MissingFieldsMessage)))
    else
      Requested(s.(isLoading := true, error := None, storyResult := None), s.formData, s.outputFormat)
  }

  /** The message shown for a rejected call. */
  function ErrorMessage(thrown: Thrown): (m: string)
    ensures thrown.ErrorValue? ==> m == thrown.message
    ensures thrown.OtherValue? ==> m == UnexpectedErrorMessage
  {
    match thrown
    case ErrorValue(message) => message
    case OtherValue => UnexpectedErrorMessage
  }

  /** The fixed fallback text is shown only for a non-`Error` value or for an
      `Error` that carries that very text; two `Error`s that show the same
      message carry the same message (the model keeps only the message). */
  lemma ErrorMessageIdentifiesThrown(a: Thrown, b: Thrown)
    ensures ErrorMessage(a) == UnexpectedErrorMessage <==>
              a == OtherValue || a == ErrorValue(UnexpectedErrorMessage)
    ensures ErrorMessage(a) == ErrorMessage(b) && a.ErrorValue? && b.ErrorValue? ==> a == b
  {
  }

  /** The `try` / `catch` / `finally` after the call settles. */
  function Settle(pending: PageState, outcome: CallOutcome): (s: PageState)
    ensures !s.isLoading
    ensures s.formData == pending.formData && s.outputFormat == pending.outputFormat
    ensures outcome.Resolved? ==> s.storyResult == Some(outcome.result) && s.error == pending.error
    ensures outcome.Rejected? ==>
              s.storyResult == pending.storyResult && s.error == Some(ErrorMessage(outcome.thrown))
  {
    match outcome
    case Resolved(result) => pending.(storyResult := Some(result), isLoading := false)
    case Rejected(thrown) => pending.(error := Some(ErrorMessage(thrown)), isLoading := false)
  }

  /** One run of the handler. */
  datatype Generation = Generation(
    called: bool,                       // whether the service was called
    pending: PageState,                 // the state while awaiting the call
    final: PageState                    // the state once the handler returns
  )

  /** `handleGenerateStory`, given how the call would settle. */
  function HandleGenerateStory(s: PageState, outcome: CallOutcome): (g: Generation)
    ensures g.called <==> FieldsFilled(s.formData)
    ensures g.final.formData == s.formData && g.final.outputFormat == s.outputFormat
    // refused: only the error changes, to the fixed message
    ensures !g.called ==> g.final == s.(error := Some(MissingFieldsMessage)) && g.pending == g.final
    // accepted: loading, no error and no story while the call is in flight
    ensures g.called ==> g.pending.isLoading && g.pending.error.None? && g.pending.storyResult.None?
    ensures g.pending.formData == s.formData && g.pending.outputFormat == s.outputFormat
    // accepted: loading is over, whatever the outcome
    ensures g.called ==> !g.final.isLoading
    ensures g.called && outcome.Resolved? ==>
              g.final.storyResult == Some(outcome.result) && g.final.error.None?
    ensures g.called && outcome.Rejected? && outcome.thrown.ErrorValue? ==>
              g.final.storyResult.None? && g.final.error == Some(outcome.thrown.message)
    ensures g.called && outcome.Rejected? && outcome.thrown.OtherValue? ==>
              g.final.storyResult.None? && g.final.error == Some(UnexpectedErrorMessage)
  {
    match BeginGenerate(s)
    case Refused(page) => Generation(false, page, page)
    case Requested(page, _, _) => Generation(true, page, Settle(page, outcome))
  }

  /** A refused run ignores the outcome: with an empty field no call is
      made, so how it would have settled cannot matter. */
  lemma RefusalIgnoresOutcome(s: PageState, a: CallOutcome, b: CallOutcome)
    requires !FieldsFilled(s.formData)
    ensures HandleGenerateStory(s, a) == HandleGenerateStory(s, b)
  {
  }

  /** An accepted run does not depend on what the page showed before:
      story and error from an earlier run are always replaced. */
  lemma AcceptedRunForgetsPreviousResult(s: PageState, t: PageState, outcome: CallOutcome)
    requires FieldsFilled(s.formData)
    requires t == s.(storyResult := t.storyResult, error := t.error, isLoading := t.isLoading)
    ensures HandleGenerateStory(s, outcome) == HandleGenerateStory(t, outcome)
  {
  }

  /** The error cell is empty after a handler run exactly when the call was
      made and resolved. */
  lemma NoErrorIffResolved(s: PageState, outcome: CallOutcome)
    ensures HandleGenerateStory(s, outcome).final.error.None? <==>
              FieldsFilled(s.formData) && outcome.Resolved?
  {
  }
}

=== FILE: audio_engine.dfy ===
/**
 The browser's Web Audio facility, seen from the playback controller: audio
 contexts and buffer sources are opaque handles whose only observable
 attributes are a status, the sample rate of a context, and for a source its
 context, its buffer and whether an `onended` handler is attached.

 Handles are allocated by a fresh-id counter: the id of a new context (source)
 is the number of contexts (sources) created before it, and the record of
 every handle is kept forever, so "the same context" means "the same id".
 */
module AudioEngine {
  import opened Types

  type CtxId = nat
  type SrcId = nat

  datatype ContextStatus = Running | Suspended | Closed
  datatype Context = Context(sampleRate: nat, status: ContextStatus)

  /** A buffer source is single-use: it is started at most once. */
  datatype SourceStatus = Unstarted | Started | Stopped
  datatype Source = Source(context: CtxId, buffer: AudioBuffer, status: SourceStatus, onEnded: bool)

  datatype Engine = Engine(contexts: seq<Context>, sources: seq<Source>)

  /** No handle created yet. */
  const Empty: Engine := Engine([], [])

  predicate HasContext(e: Engine, c: CtxId) { c < |e.contexts| }
  predicate HasSource(e: Engine, s: SrcId) { s < |e.sources| }

  /** The `state !== 'closed'` test of the program. */
  predicate IsOpen(e: Engine, c: CtxId)
    requires HasContext(e, c)
  {
    e.contexts[c].status != Closed
  }

  /** A source whose completion would still run a handler: it is playing
      and its `onended` handler is attached. */
  predicate Live(s: Source) { s.onEnded && s.status == Started }

  /** The source keeps everything but its status. */
  predicate SameBinding(a: Source, b: Source)
  {
    a.context == b.context && a.buffer == b.buffer && a.onEnded == b.onEnded
  }

  /** `new AudioContext({ sampleRate })`: a running context with a fresh id. */
  function CreateContext(e: Engine, rate: nat): (r: (Engine, CtxId))
    ensures !HasContext(e, r.1) && HasContext(r.0, r.1)
    ensures r.0.contexts[r.1] == Context(rate, Running)
    ensures |r.0.contexts| == |e.contexts| + 1
    ensures forall c :: 0 <= c < |e.contexts| ==> r.0.contexts[c] == e.contexts[c]
    ensures r.0.sources == e.sources
  {
    (e.(contexts := e.contexts + [Context(rate, Running)]), |e.contexts|)
  }

  /** `context.createBufferSource()` followed by `source.buffer = buffer`:
      a fresh, unstarted source with no handler. */
  function CreateBufferSource(e: Engine, c: CtxId, buffer: AudioBuffer): (r: (Engine, SrcId))
    requires HasContext(e, c)
    ensures !HasSource(e, r.1) && HasSource(r.0, r.1)
    ensures r.0.sources[r.1] == Source(c, buffer, Unstarted, false)
    ensures |r.0.sources| == |e.sources| + 1
    ensures forall i :: 0 <= i < |e.sources| ==> r.0.sources[i] == e.sources[i]
    ensures r.0.contexts == e.contexts
  {
    (e.(sources := e.sources + [Source(c, buffer, Unstarted, false)]), |e.sources|)
  }

  /** Assigning (`true`) or nulling (`false`) `source.onended`. */
  function SetOnEnded(e: Engine, s: SrcId, attached: bool): (r: Engine)
    requires HasSource(e, s)
    ensures |r.sources| == |e.sources| && r.contexts == e.contexts
    ensures r.sources[s].onEnded == attached
    ensures r.sources[s].status == e.sources[s].status
    ensures forall i :: 0 <= i < |e.sources| && i != s ==> r.sources[i] == e.sources[i]
  {
    e.(sources := e.sources[s := e.sources[s].(onEnded := attached)])
  }

  /** `source.start()`. Starting a source twice raises an InvalidStateError in
      the browser; here it is a precondition, so a caller that verifies
      never restarts a source. */
  function Start(e: Engine, s: SrcId): (r: Engine)
    requires HasSource(e, s) && e.sources[s].status == Unstarted
    ensures |r.sources| == |e.sources| && r.contexts == e.contexts
    ensures r.sources[s].status == Started && SameBinding(r.sources[s], e.sources[s])
    ensures forall i :: 0 <= i < |e.sources| && i != s ==> r.sources[i] == e.sources[i]
  {
    e.(sources := e.sources[s := e.sources[s].(status := Started)])
  }

  /** `source.stop()`, or the source reaching the end of its buffer: a
      playing source stops for good. */
  function Stop(e: Engine, s: SrcId): (r: Engine)
    requires HasSource(e, s)
    ensures |r.sources| == |e.sources| && r.contexts == e.contexts
    ensures r.sources[s].status != Started && SameBinding(r.sources[s], e.sources[s])
    ensures e.sources[s].status != Started ==> r == e
    ensures forall i :: 0 <= i < |e.sources| && i != s ==> r.sources[i] == e.sources[i]
  {
    if e.sources[s].status == Started then
      e.(sources := e.sources[s := e.sources[s].(status := Stopped)])
    else
      e
  }

  /** `context.suspend()`: the audio clock halts; a closed context stays closed. */
  function Suspend(e: Engine, c: CtxId): (r: Engine)
    requires HasContext(e, c)
    ensures |r.contexts| == |e.contexts| && r.sources == e.sources
    ensures r.contexts[c].sampleRate == e.contexts[c].sampleRate
    ensures r.contexts[c].status == (if IsOpen(e, c) then Suspended else Closed)
    ensures forall k :: 0 <= k < |e.contexts| && k != c ==> r.contexts[k] == e.contexts[k]
  {
    if IsOpen(e, c) then e.(contexts := e.contexts[c := e.contexts[c].(status := Suspended)]) else e
  }

  /** `context.resume()`: the audio clock runs again; a closed context stays closed. */
  function Resume(e: Engine, c: CtxId): (r: Engine)
    requires HasContext(e, c)
    ensures |r.contexts| == |e.contexts| && r.sources == e.sources
    ensures r.contexts[c].sampleRate == e.contexts[c].sampleRate
    ensures r.contexts[c].status == (if IsOpen(e, c) then Running else Closed)
    ensures forall k :: 0 <= k < |e.contexts| && k != c ==> r.contexts[k] == e.contexts[k]
  {
    if IsOpen(e, c) then e.(contexts := e.contexts[c := e.contexts[c].(status := Running)]) else e
  }

  /** `context.close()`: the context is released for good. */
  function Close(e: Engine, c: CtxId): (r: Engine)
    requires HasContext(e, c)
    ensures |r.contexts| == |e.contexts| && r.sources == e.sources
    ensures r.contexts[c].status == Closed && r.contexts[c].sampleRate == e.contexts[c].sampleRate
    ensures forall k :: 0 <= k < |e.contexts| && k != c ==> r.contexts[k] == e.contexts[k]
  {
    e.(contexts := e.contexts[c := e.contexts[c].(status := Closed)])
  }
}

=== FILE: page.dfy ===
/**
 The page as a whole: the generate handler's `storyResult` cell is the prop
 of the story view, so every change of that cell re-runs the view's story
 effect (its clean-up, then back to idle).
 */
module Page {
  import opened Types
  import opened StoryDisplay
  import opened PlaybackTraces
  import opened App

  /** The view receives a `storyResult` value; the effect re-runs only when
      the value differs from the one it last saw. */
  function ShowStory(p: Player, story: Option<StoryResult>): (r: Player)
    requires WellFormed(p)
    ensures WellFormed(r) && r.story == story
    ensures story == p.story ==> r == p
    ensures story != p.story ==> r.state == Idle && r.sourceRef.None?
  {
    if story == p.story then p else StoryChanged(p, story)
  }

  /** The view at rest: idle, nothing open, no handler that can still run. */
  ghost predicate Quiet(q: Player)
  {
    && q.state == Idle && q.contextRef.None? && q.sourceRef.None?
    && OpenCount(q.engine.contexts) == 0
    && (forall i: nat :: !LiveAt(q, i))
  }

  lemma {:induction false} InvWithoutHandlesIsQuiet(q: Player)
    requires Inv(q) && q.contextRef.None? && q.state == Idle
    ensures Quiet(q)
  {
    InvBoundsOpenContexts(q);
  }

  /** A generate run that reaches the service shuts the view's audio down,
      whatever the view was doing: it ends showing the run's final story,
      idle, with every context it created closed and no completion handler
      left. A refused run leaves the view as it was. */
  lemma {:induction false} GenerationResetsPlayback(s: PageState, p: Player, outcome: CallOutcome)
    requires Inv(p) && p.story == s.storyResult
    ensures var g := HandleGenerateStory(s, outcome);
            var q := ShowStory(ShowStory(p, g.pending.storyResult), g.final.storyResult);
            && (g.called ==> q.story == g.final.storyResult && Quiet(q))
            && (!g.called ==> q == p)
  {
    var g := HandleGenerateStory(s, outcome);
    if g.called {
      var q1 := ShowStory(p, g.pending.storyResult);
      if p.story == g.pending.storyResult {
        InvWithoutHandlesIsQuiet(p);
      } else {
        NewStoryPreservesInv(p, g.pending.storyResult);
        InvWithoutHandlesIsQuiet(q1);
      }
      var q := ShowStory(q1, g.final.storyResult);
      if q1.story != g.final.storyResult {
        NewStoryPreservesInv(q1, g.final.storyResult);
        InvWithoutHandlesIsQuiet(q);
      }
    }
  }
}

=== FILE: playback_traces.dfy ===
/**
 What holds of the playback controller after ANY sequence of button clicks,
 source completions and story changes, starting from the first render.

 The central fact is `Inv`: the context cell is the only context the
 controller may have left open, the source cell holds exactly the one source
 whose `onended` handler can still run, and the playback state agrees with
 both. From it follows that at most one context created by the component is
 not closed.
 */
module PlaybackTraces {
  import opened Types
  import opened AudioEngine
  import opened StoryDisplay

  /** Everything that can happen to a mounted controller. */
  datatype Event =
    | Click                                  // the play button
    | Ended(source: SrcId)                   // a buffer source finishes
    | NewStory(story: Option<StoryResult>)   // the `storyResult` prop changes

  function Step(p: Player, ev: Event): (r: Player)
    requires WellFormed(p)
    ensures WellFormed(r)
  {
    match ev
    case Click => HandlePlayback(p)
    case Ended(s) => OnEnded(p, s)
    case NewStory(story) => StoryChanged(p, story)
  }

  function Run(p: Player, evs: seq<Event>): (r: Player)
    requires WellFormed(p)
    ensures WellFormed(r)
    decreases |evs|
  {
    if evs == [] then p else Run(Step(p, evs[0]), evs[1..])
  }

  /** A context the controller created that is not closed. */
  predicate OpenAt(p: Player, c: nat)
  {
    c < |p.engine.contexts| && p.engine.contexts[c].status != Closed
  }

  /** A source whose completion handler can still run. */
  predicate LiveAt(p: Player, i: nat)
  {
    i < |p.engine.sources| && Live(p.engine.sources[i])
  }

  ghost predicate Inv(p: Player)
  {
    && WellFormed(p)
    // the only context that may be open is the one in the cell, and it is open
    && (forall c: nat :: OpenAt(p, c) ==> p.contextRef == Some(c))
    && (p.contextRef.Some? ==> OpenAt(p, p.contextRef.value))
    // the only handler that can run belongs to the source in the cell
    && (forall i: nat :: LiveAt(p, i) ==> p.sourceRef == Some(i))
    && (p.sourceRef.Some? ==> LiveAt(p, p.sourceRef.value))
    // the source in the cell plays on the context in the cell
    && (p.sourceRef.Some? ==> p.contextRef == Some(p.engine.sources[p.sourceRef.value].context))
    // idle exactly when no source is held
    && (p.state == Idle <==> p.sourceRef.None?)
    // the audio clock agrees with the button
    && (p.state == Playing ==> p.contextRef.Some? && p.engine.contexts[p.contextRef.value].status == Running)
    && (p.state == Paused ==> p.contextRef.Some? && p.engine.contexts[p.contextRef.value].status == Suspended)
    // a story without narration has no audio objects attached
    && (AudioOf(p.story).None? ==> p.contextRef.None? && p.sourceRef.None?)
  }

  lemma MountEstablishesInv(story: Option<StoryResult>)
    ensures Inv(Mount(story))
  {
  }

  lemma ClickPreservesInv(p: Player)
    requires Inv(p)
    ensures Inv(HandlePlayback(p))
  {
  }

  lemma {:induction false} EndedPreservesInv(p: Player, s: SrcId)
    requires Inv(p)
    ensures Inv(OnEnded(p, s))
  {
    var r := OnEnded(p, s);
    if LiveAt(p, s) {
      assert p.sourceRef == Some(s);
      forall i: nat | LiveAt(r, i) ensures false {
        if i != s {
          assert r.engine.sources[i] == p.engine.sources[i];
          assert LiveAt(p, i);
        }
      }
    }
  }

  lemma NewStoryPreservesInv(p: Player, story: Option<StoryResult>)
    requires Inv(p)
    ensures Inv(StoryChanged(p, story))
    ensures StoryChanged(p, story).contextRef.None?
    ensures forall c: nat :: !OpenAt(StoryChanged(p, story), c)
    ensures forall i: nat :: !LiveAt(StoryChanged(p, story), i)
  {
  }

  lemma {:induction false} StepPreservesInv(p: Player, ev: Event)
    requires Inv(p)
    ensures Inv(Step(p, ev))
  {
    match ev
    case Click => ClickPreservesInv(p);
    case Ended(s) => EndedPreservesInv(p, s);
    case NewStory(story) => NewStoryPreservesInv(p, story);
  }

  lemma {:induction false} RunPreservesInv(p: Player, evs: seq<Event>)
    requires Inv(p)
    ensures Inv(Run(p, evs))
    decreases |evs|
  {
    if evs != [] {
      StepPreservesInv(p, evs[0]);
      RunPreservesInv(Step(p, evs[0]), evs[1..]);
    }
  }

  /** The number of contexts in `cs` that are not closed. */
  function OpenCount(cs: seq<Context>): nat
  {
    if cs == [] then 0
    else (if cs[0].status != Closed then 1 else 0) + OpenCount(cs[1..])
  }

  lemma {:induction false} OpenCountAtMostOne(cs: seq<Context>, c: nat)
    requires forall k :: 0 <= k < |cs| && cs[k].status != Closed ==> k == c
    ensures OpenCount(cs) <= 1
    ensures c >= |cs| ==> OpenCount(cs) == 0
    decreases |cs|
  {
    if cs != [] {
      var tail := cs[1..];
      if c == 0 {
        OpenCountAtMostOne(tail, |tail|);
      } else {
        forall k | 0 <= k < |tail| && tail[k].status != Closed ensures k == c - 1 {
          assert cs[k + 1] == tail[k];
        }
        OpenCountAtMostOne(tail, c - 1);
      }
    }
  }

  lemma InvBoundsOpenContexts(p: Player)
    requires Inv(p)
    ensures OpenCount(p.engine.contexts) <= 1
    ensures p.contextRef.None? ==> OpenCount(p.engine.contexts) == 0
  {
    var c := if p.contextRef.Some? then p.contextRef.value else |p.engine.contexts|;
    forall k | 0 <= k < |p.engine.contexts| && p.engine.contexts[k].status != Closed
      ensures k == c
    {
      assert OpenAt(p, k);
    }
    OpenCountAtMostOne(p.engine.contexts, c);
  }

  /** After any sequence of events from the first render, at most one
      context created by the component is open, and only the source in the
      source cell can still run its completion handler. */
  lemma AtMostOneOpenContext(story: Option<StoryResult>, evs: seq<Event>)
    ensures OpenCount(Run(Mount(story), evs).engine.contexts) <= 1
    ensures forall i: nat :: LiveAt(Run(Mount(story), evs), i) ==> Run(Mount(story), evs).sourceRef == Some(i)
  {
    MountEstablishesInv(story);
    RunPreservesInv(Mount(story), evs);
    InvBoundsOpenContexts(Run(Mount(story), evs));
  }

  /** In a reachable state the fall-through branches of `handlePlayback`
      cannot be taken: playing or paused always has a context. */
  lemma ReachableNeverFallsThrough(story: Option<StoryResult>, evs: seq<Event>)
    ensures var p := Run(Mount(story), evs);
            p.state != Idle ==> p.contextRef.Some? && p.sourceRef.Some?
  {
    MountEstablishesInv(story);
    RunPreservesInv(Mount(story), evs);
  }

  /** In a reachable state the context cell never holds a closed context,
      so the clean-up always empties it. */
  lemma ReachableTeardownReleasesAll(story: Option<StoryResult>, evs: seq<Event>)
    ensures var p := Run(Mount(story), evs);
            var r := Teardown(p);
            r.contextRef.None? && OpenCount(r.engine.contexts) == 0
  {
    var p := Run(Mount(story), evs);
    MountEstablishesInv(story);
    RunPreservesInv(Mount(story), evs);
    NewStoryPreservesInv(p, p.story);
    InvBoundsOpenContexts(StoryChanged(p, p.story));
  }

  /** Start, pause, continue: the second and third clicks reuse the context
      and source the first one created, and the context runs again. */
  lemma PauseThenContinueKeepsContext(p: Player)
    requires WellFormed(p) && p.state == Idle && AudioOf(p.story).Some?
    ensures var a := HandlePlayback(p);
            var b := HandlePlayback(a);
            var c := HandlePlayback(b);
            && a.state == Playing && b.state == Paused && c.state == Playing
            && b.contextRef == a.contextRef && c.contextRef == a.contextRef
            && c.sourceRef == a.sourceRef
            && c.engine.sources == a.engine.sources
            && |c.engine.contexts| == |a.engine.contexts|
            && b.engine.contexts[a.contextRef.value].status == Suspended
            && c.engine.contexts[a.contextRef.value].status == Running
  {
  }

  /** Start, let the narration finish, start again: the completion keeps
      the context cell, and the second start closes that context and plays
      through a new context and a new source; the finished source is never
      started again. */
  lemma RestartAfterEndUsesFreshHandles(p: Player)
    requires WellFormed(p) && p.state == Idle && AudioOf(p.story).Some?
    ensures var a := HandlePlayback(p);
            var b := OnEnded(a, a.sourceRef.value);
            var c := HandlePlayback(b);
            && b.state == Idle && b.sourceRef.None? && b.contextRef == a.contextRef
            && c.state == Playing
            && c.contextRef !in {p.contextRef, a.contextRef} && c.sourceRef != a.sourceRef
            && c.engine.contexts[a.contextRef.value].status == Closed
            && c.engine.sources[a.sourceRef.value].status == Stopped
  {
  }
}

=== FILE: story_display.dfy ===
/**
 The audio playback controller of the story view (src/components/StoryDisplay.tsx).

 The component holds a playback state and two reference cells, one for the
 current audio context and one for the current buffer source. Four things act
 on it, each modelled as one atomic transition of a `Player`:
 - the play button handler `handlePlayback`  -> `HandlePlayback`
 - the source's `onended` callback           -> `OnEnded`
 - the clean-up of the story effect          -> `Teardown`
 - the effect re-running on a new story      -> `StoryChanged`
 and the button's label is a function of the playback state (`PlayButton`).
 */
module StoryDisplay {
  import opened Types
  import opened AudioEngine

  datatype PlaybackState = Idle | Playing | Paused

  /** Sample rate of every context the controller creates (Hz). */
  const SampleRate: nat := 24000

  /** The component's state: the `storyResult` prop, the playback state,
      the two reference cells, and the audio objects they may point to. */
  datatype Player = Player(
    story: Option<StoryResult>,
    state: PlaybackState,
    contextRef: Option<CtxId>,
    sourceRef: Option<SrcId>,
    engine: Engine
  )

  /** The reference cells hold handles the browser actually created. */
  predicate WellFormed(p: Player)
  {
    && (p.contextRef.Some? ==> HasContext(p.engine, p.contextRef.value))
    && (p.sourceRef.Some? ==> HasSource(p.engine, p.sourceRef.value))
  }

  /** The first render: idle, both cells empty, no audio object yet. */
  function Mount(story: Option<StoryResult>): (p: Player)
    ensures WellFormed(p) && p.story == story && p.state == Idle
    ensures p.contextRef.None? && p.sourceRef.None? && p.engine == Empty
  {
    Player(story, Idle, None, None, Empty)
  }

  /** Nothing the controller created before `p` changed except in the ways
      the caller states: sources are only ever added, never restarted. */
  predicate NoSourceRestarted(p: Player, r: Player)
  {
    && |p.engine.sources| <= |r.engine.sources|
    && forall i :: 0 <= i < |p.engine.sources| && r.engine.sources[i].status == Started ==>
         p.engine.sources[i].status == Started
  }

  /** The idle branch of `handlePlayback`: close the previous context if it
      is still open, then create a fresh 24 kHz context and a fresh source
      bound to the story's buffer, attach `onended`, start it, and store both
      handles. */
  function StartPlayback(p: Player, buffer: AudioBuffer): (r: Player)
    requires WellFormed(p)
    ensures WellFormed(r) && r.state == Playing && r.story == p.story
    // both handles are new: their ids were never handed out before
    ensures r.contextRef == Some(|p.engine.contexts|) && r.sourceRef == Some(|p.engine.sources|)
    ensures |r.engine.contexts| == |p.engine.contexts| + 1
    ensures |r.engine.sources| == |p.engine.sources| + 1
    ensures r.engine.contexts[r.contextRef.value] == Context(SampleRate, Running)
    ensures r.engine.sources[r.sourceRef.value] == Source(r.contextRef.value, buffer, Started, true)
    // the stale context is closed before the new one is made; nothing else about it changes
    ensures p.contextRef.Some? ==>
              r.engine.contexts[p.contextRef.value] == p.engine.contexts[p.contextRef.value].(status := Closed)
    // every other earlier context, and every earlier source, is untouched
    ensures forall c :: 0 <= c < |p.engine.contexts| && Some(c) != p.contextRef ==>
              r.engine.contexts[c] == p.engine.contexts[c]
    ensures forall i :: 0 <= i < |p.engine.sources| ==> r.engine.sources[i] == p.engine.sources[i]
  {
    var e0 :=
      if p.contextRef.Some? && IsOpen(p.engine, p.contextRef.value)
      then Close(p.engine, p.contextRef.value)
      else p.engine;
    var (e1, context) := CreateContext(e0, SampleRate);
    var (e2, source) := CreateBufferSource(e1, context, buffer);
    var e3 := SetOnEnded(e2, source, true);
    var e4 := Start(e3, source);
    Player(p.story, Playing, Some(context), Some(source), e4)
  }

  /** `handlePlayback`: the play/pause/continue button. */
  function HandlePlayback(p: Player): (r: Player)
    requires WellFormed(p)
    ensures WellFormed(r) && r.story == p.story
    ensures NoSourceRestarted(p, r)
    // without narration the button does nothing
    ensures AudioOf(p.story).None? ==> r == p
    // paused with a context: the same context resumes, no handle is created
    ensures AudioOf(p.story).Some? && p.state == Paused && p.contextRef.Some? ==>
              && r.state == Playing
              && r.contextRef == p.contextRef && r.sourceRef == p.sourceRef
              && r.engine.sources == p.engine.sources
              && |r.engine.contexts| == |p.engine.contexts|
              && (IsOpen(p.engine, p.contextRef.value) ==>
                    r.engine.contexts[p.contextRef.value].status == Running)
              && r.engine.contexts[p.contextRef.value].sampleRate ==
                   p.engine.contexts[p.contextRef.value].sampleRate
              && (!IsOpen(p.engine, p.contextRef.value) ==> r.engine == p.engine)
              && (forall k :: 0 <= k < |p.engine.contexts| && k != p.contextRef.value ==>
                    r.engine.contexts[k] == p.engine.contexts[k])
    // playing with a context: the same context suspends, no handle is created
    ensures AudioOf(p.story).Some? && p.state == Playing && p.contextRef.Some? ==>
              && r.state == Paused
              && r.contextRef == p.contextRef && r.sourceRef == p.sourceRef
              && r.engine.sources == p.engine.sources
              && |r.engine.contexts| == |p.engine.contexts|
              && (IsOpen(p.engine, p.contextRef.value) ==>
                    r.engine.contexts[p.contextRef.value].status == Suspended)
              && r.engine.contexts[p.contextRef.value].sampleRate ==
                   p.engine.contexts[p.contextRef.value].sampleRate
              && (!IsOpen(p.engine, p.contextRef.value) ==> r.engine == p.engine)
              && (forall k :: 0 <= k < |p.engine.contexts| && k != p.contextRef.value ==>
                    r.engine.contexts[k] == p.engine.contexts[k])
    // playing or paused without a context: every branch falls through
    ensures p.state != Idle && p.contextRef.None? ==> r == p
    // idle with narration: a fresh context and a fresh source, now playing
    ensures AudioOf(p.story).Some? && p.state == Idle ==>
              r == StartPlayback(p, AudioOf(p.story).value)
  {
    match AudioOf(p.story)
    case None => p
    case Some(buffer) =>
      if p.state == Paused && p.contextRef.Some? then
        p.(engine := Resume(p.engine, p.contextRef.value), state := Playing)
      else if p.state == Playing && p.contextRef.Some? then
        p.(engine := Suspend(p.engine, p.contextRef.value), state := Paused)
      else if p.state == Idle then
        StartPlayback(p, buffer)
      else
        p
  }

  /** The `onended` handler of source `s` runs when that source finishes,
      provided the handler is still attached to it. It sets the state to
      idle and empties the source cell, whatever the cell holds; the context
      cell is left as it is. */
  function OnEnded(p: Player, s: SrcId): (r: Player)
    requires WellFormed(p)
    ensures WellFormed(r) && r.story == p.story
    ensures NoSourceRestarted(p, r)
    ensures r.contextRef == p.contextRef
    ensures r.engine.contexts == p.engine.contexts
    ensures |r.engine.sources| == |p.engine.sources|
    ensures forall i :: 0 <= i < |p.engine.sources| && i != s ==>
              r.engine.sources[i] == p.engine.sources[i]
    ensures HasSource(p.engine, s) && Live(p.engine.sources[s]) ==>
              && r.state == Idle && r.sourceRef.None?
              && r.engine.sources[s].status == Stopped
              && SameBinding(r.engine.sources[s], p.engine.sources[s])
    ensures !(HasSource(p.engine, s) && Live(p.engine.sources[s])) ==> r == p
  {
    if HasSource(p.engine, s) && Live(p.engine.sources[s]) then
      p.(state := Idle, sourceRef := None, engine := Stop(p.engine, s))
    else
      p
  }

  /** The first half of the clean-up: detach `onended`, stop the source,
      empty the source cell. */
  function ReleaseSource(p: Player): (r: Player)
    requires WellFormed(p)
    ensures WellFormed(r) && r.sourceRef.None?
    ensures r.story == p.story && r.state == p.state
    ensures r.contextRef == p.contextRef && r.engine.contexts == p.engine.contexts
    ensures |r.engine.sources| == |p.engine.sources|
    // the held source keeps its context and buffer, loses its handler, and
    // a playing source becomes stopped
    ensures p.sourceRef.Some? ==>
              var s := p.sourceRef.value;
              var held := p.engine.sources[s];
              r.engine.sources[s] ==
                held.(onEnded := false, status := if held.status == Started then Stopped else held.status)
    ensures forall i :: 0 <= i < |p.engine.sources| && Some(i) != p.sourceRef ==>
              r.engine.sources[i] == p.engine.sources[i]
  {
    match p.sourceRef
    case None => p
    case Some(s) =>
      var detached := SetOnEnded(p.engine, s, false);
      p.(engine := Stop(detached, s), sourceRef := None)
  }

  /** The clean-up the story effect returns, run before the effect re-runs
      on a new story and when the component unmounts. The context is closed
      and its cell emptied only when it is not already closed; a closed
      context stays in its cell. */
  function Teardown(p: Player): (r: Player)
    requires WellFormed(p)
    ensures WellFormed(r) && r.story == p.story && r.state == p.state
    ensures r.sourceRef.None?
    ensures NoSourceRestarted(p, r)
    ensures |r.engine.sources| == |p.engine.sources|
    ensures |r.engine.contexts| == |p.engine.contexts|
    // no handler is left that could fire against the torn-down session
    ensures forall i :: 0 <= i < |r.engine.sources| && Live(r.engine.sources[i]) ==>
              Live(p.engine.sources[i]) && Some(i) != p.sourceRef
    ensures p.contextRef.Some? && IsOpen(p.engine, p.contextRef.value) ==>
              r.contextRef.None? && r.engine.contexts[p.contextRef.value].status == Closed
    ensures p.contextRef.Some? && !IsOpen(p.engine, p.contextRef.value) ==>
              r.contextRef == p.contextRef
    ensures p.contextRef.None? ==> r.contextRef.None?
    // the held context's record: closed if it was open, otherwise exactly as it was
    ensures p.contextRef.Some? ==>
              var c := p.contextRef.value;
              r.engine.contexts[c] ==
                (if IsOpen(p.engine, c) then p.engine.contexts[c].(status := Closed) else p.engine.contexts[c])
    ensures forall c :: 0 <= c < |p.engine.contexts| && Some(c) != p.contextRef ==>
              r.engine.contexts[c] == p.engine.contexts[c]
    // the sources change exactly as the first half of the clean-up says
    ensures r.engine.sources == ReleaseSource(p).engine.sources
    ensures forall i :: 0 <= i < |p.engine.sources| && Some(i) != p.sourceRef ==>
              r.engine.sources[i] == p.engine.sources[i]
  {
    var q := ReleaseSource(p);
    if q.contextRef.Some? && IsOpen(q.engine, q.contextRef.value) then
      q.(engine := Close(q.engine, q.contextRef.value), contextRef := None)
    else
      q
  }

  /** A new `storyResult` arrives: the previous effect's clean-up runs, then
      the effect body sets the state back to idle. */
  function StoryChanged(p: Player, story: Option<StoryResult>): (r: Player)
    requires WellFormed(p)
    ensures WellFormed(r) && r.story == story && r.state == Idle && r.sourceRef.None?
    ensures NoSourceRestarted(p, r)
    // the audio objects and the context cell are exactly as the clean-up leaves them
    ensures r.contextRef == Teardown(p).contextRef && r.engine == Teardown(p).engine
    ensures |r.engine.contexts| == |p.engine.contexts|
    ensures p.contextRef.Some? && IsOpen(p.engine, p.contextRef.value) ==>
              r.contextRef.None? && r.engine.contexts[p.contextRef.value].status == Closed
    ensures p.contextRef.Some? && !IsOpen(p.engine, p.contextRef.value) ==>
              r.contextRef == p.contextRef
    ensures p.contextRef.None? ==> r.contextRef.None?
    ensures p.contextRef.Some? ==>
              var c := p.contextRef.value;
              r.engine.contexts[c] ==
                (if IsOpen(p.engine, c) then p.engine.contexts[c].(status := Closed) else p.engine.contexts[c])
    ensures forall c :: 0 <= c < |p.engine.contexts| && Some(c) != p.contextRef ==>
              r.engine.contexts[c] == p.engine.contexts[c]
  {
    Teardown(p).(story := story, state := Idle)
  }

  datatype Icon = SpeakerIcon | PauseIcon
  datatype Button = Button(text: string, icon: Icon)

  /** The label and icon of the play button. */
  function PlayButton(state: PlaybackState): (b: Button)
    ensures b.icon == PauseIcon <==> state == Playing
    ensures state == Idle ==> b.text == "Tocar Áudio"
    ensures state == Playing ==> b.text == "Pausar Áudio"
    ensures state == Paused ==> b.text == "Continuar"
  {
    match state
    case Playing => Button("Pausar Áudio", PauseIcon)
    case Paused => Button("Continuar", SpeakerIcon)
    case Idle => Button("Tocar Áudio", SpeakerIcon)
  }

  /** Reads the playback state back off a button label. */
  function StateOfLabel(text: string): Option<PlaybackState>
  {
    if text == "Pausar Áudio" then Some(Playing)
    else if text == "Continuar" then Some(Paused)
    else if text == "Tocar Áudio" then Some(Idle)
    else None
  }

  /** The label alone tells the three states apart. */
  lemma LabelDeterminesState(state: PlaybackState)
    ensures StateOfLabel(PlayButton(state).text) == Some(state)
    ensures forall other: PlaybackState :: PlayButton(other).text == PlayButton(state).text ==> other == state
  {
    forall other: PlaybackState | PlayButton(other).text == PlayButton(state).text
      ensures other == state
    {
      assert StateOfLabel(PlayButton(other).text) == Some(other);
    }
  }
}

=== FILE: types.dfy ===
/**
 The shared record types of the story generator (types.ts), plus the small
 Option wrapper the rest of the model uses for nullable values.
 */
module Types {

  /** A nullable value: `null` / `undefined` in the program is `None`. */
  datatype Option<+T> = None | Some(value: T)

  /** A decoded audio buffer. Its samples are never inspected by the
      playback controller, so it is an opaque handle. */
  datatype AudioBuffer = AudioBuffer(id: nat)

  /** The four controlled form fields; `age` is kept as text, as typed. */
  datatype StoryFormData = StoryFormData(
    age: string,
    name: string,
    characteristics: string,
    theme: string
  )

  /** Whether speech synthesis follows text generation. */
  datatype OutputFormat = Text | Audio

  /** One generated story: its text and, for the audio format, its narration. */
  datatype StoryResult = StoryResult(text: string, audioBuffer: Option<AudioBuffer>)

  /** `storyResult?.audioBuffer`: the narration of the displayed story, if any. */
  function AudioOf(story: Option<StoryResult>): Option<AudioBuffer>
  {
    match story
    case None => None
    case Some(s) => s.audioBuffer
  }
}
